=== FILE: README.md ===
# Scope-chained variable lookup of the MVEL expression-language context

A Dafny model of `MVELExpressionLanguageContext`, the object Mule's expression
language uses to resolve variable names. A context holds three things:

- private variables, a plain name-to-value map;
- its own resolver map (`variableResolvers`);
- a singly linked chain of resolver factories (`nextFactory`). The chain normally ends in
  the context's internal `localFactory`.

`getVariable` consults these in that order. `addResolver` decides where a new variable
goes. The exact base class writes it into `localFactory`. A subclass writes it into its
own map. `appendFactory` splices a factory in just before the first internal factory, so
appended factories are consulted before the base class's own variables.
`insertFactory` pushes a factory onto the head of the chain. Three import guards
protect the parser configuration's import table.

Modules, leaves first:

- `wrappers.dfy` (`Wrappers`): `Option` stands for a nullable reference and `Result` for
  a call that may throw.
- `resolvers.dfy` (`Resolvers`): values, variable and alias resolvers, and `setValue`.
- `chain.dfy` (`Chain`): the factory chain. It defines the walk, the append and insert
  splices, in-place reassignment, and the chain's well-formedness.
- `context.dfy` (`Contexts`): the context record and every operation of the class.
- `precedence.dfy` (`Precedence`): lemmas on lookup order, write visibility and chain
  shape.
- `imports.dfy` (`Imports`): the three import guards.

The chain is kept in three parts:

- the factories met before the local factory;
- whether the walk reaches the local factory at all;
- the chain the local factory itself leads through its own `nextFactory`.

`Links` lists the factories in the order the walk meets them. Each factory answers from
its own resolvers and otherwise asks its next factory. `isNextResolveable` is "some
factory of the chain holds the name". A chain is *well formed* when the walk reaches the
local factory and no internal factory comes before it. The constructor builds a
well-formed chain. Writes and `createVariable` keep it well formed, and so do appending
or inserting a factory that is not internal. Splicing in an internal factory need not
keep it well formed. Inserting into a null chain gives a chain that does not reach the
local factory.

## Model

| member | source | states |
|---|---|---|
| Contexts.NewContext | core/src/main/java/org/mule/el/mvel/MVELExpressionLanguageContext.java:42-48 | a fresh context has no private variables and an empty own map; its walk is exactly the local factory, which holds nothing, and the chain is well formed |
| Precedence.FreshContext | core/src/main/java/org/mule/el/mvel/MVELExpressionLanguageContext.java:42-48 | a fresh context contains no name and yields null for every name; any write into it, by the base class or a subclass, is visible |
| Contexts.IsTarget | core/src/main/java/org/mule/el/mvel/MVELExpressionLanguageContext.java:59-63 | `isTarget`: the name is in the context's own resolver map |
| Contexts.IsResolveable | core/src/main/java/org/mule/el/mvel/MVELExpressionLanguageContext.java:65-69 | `isResolveable` holds exactly when the name is in the own map or the walk along the chain finds a resolver for it |
| Contexts.Contains | core/src/main/java/org/mule/el/mvel/MVELExpressionLanguageContext.java:221-225 | `contains` holds exactly for the names `getVariableResolver` finds a resolver for, which are the names in the own map or found by the walk |
| Contexts.GetVariableResolver | core/src/main/java/org/mule/el/mvel/MVELExpressionLanguageContext.java:77-91 | a resolver is returned exactly when the name is resolvable, otherwise null; a name in the own map yields the own map's resolver, any other name the chain walk's answer |
| Precedence.ResolverLookupOrder | core/src/main/java/org/mule/el/mvel/MVELExpressionLanguageContext.java:77-91 | the full lookup order: the own map first, then the resolver of the first chain factory holding the name, else null |
| Chain.Walk | core/src/main/java/org/mule/el/mvel/MVELExpressionLanguageContext.java:87 | the delegation along `nextFactory` finds a resolver exactly when some factory of the chain holds the name |
| Chain.WalkFindsHolder | core/src/main/java/org/mule/el/mvel/MVELExpressionLanguageContext.java:87 | the delegation answers with the resolver of the first factory holding the name, and null when none does |
| Resolvers.ValueOf | core/src/main/java/org/mule/el/mvel/MVELExpressionLanguageContext.java:156 | `getValue`: a variable yields its stored value, an alias the value of its expression |
| Contexts.GetVariable | core/src/main/java/org/mule/el/mvel/MVELExpressionLanguageContext.java:145-163 | a private name yields its private value; any other resolvable name yields the value of the resolver `getVariableResolver` finds; any other name yields null |
| Precedence.VariableLookupOrder | core/src/main/java/org/mule/el/mvel/MVELExpressionLanguageContext.java:145-163 | the full order of `getVariable`: the private map, then the own map, then the first chain factory holding the name, else null |
| Precedence.PrivateShadows | core/src/main/java/org/mule/el/mvel/MVELExpressionLanguageContext.java:147-150 | the value of a private name depends on the private map alone: any resolvers, chain or alias evaluation give the same answer |
| Contexts.AddPrivateVariable | core/src/main/java/org/mule/el/mvel/MVELExpressionLanguageContext.java:288-292 | the private map gains or replaces the entry; resolvers and chain are untouched |
| Precedence.AddPrivateThenGet | core/src/main/java/org/mule/el/mvel/MVELExpressionLanguageContext.java:288-292 | a private variable just added is what `getVariable` returns, whatever resolvers exist for the name |
| Contexts.AddResolver | core/src/main/java/org/mule/el/mvel/MVELExpressionLanguageContext.java:176-186 | the base class puts the resolver into the local factory only and leaves its own map unchanged; a subclass puts it into its own map only; a same-name entry is replaced; private variables and the chain's factories never change |
| Precedence.AddResolverLookup | core/src/main/java/org/mule/el/mvel/MVELExpressionLanguageContext.java:172-186 | after `addResolver`, the lookup of that name yields the new resolver exactly when the write is visible (a subclass, or a base class whose own map lacks the name and whose walk meets the local factory before any factory holding it); otherwise the lookup is unchanged |
| Precedence.AddResolverOtherNames | core/src/main/java/org/mule/el/mvel/MVELExpressionLanguageContext.java:176-186 | `addResolver` leaves the lookup of every other name unchanged |
| Chain.WalkAfterLocalWrite | core/src/main/java/org/mule/el/mvel/MVELExpressionLanguageContext.java:277-280 | a put into the local factory changes the chain's answer for that name exactly when the walk reaches the local factory first, and then the answer is the new resolver |
| Precedence.BaseWriteVisibleOnWellFormed | core/src/main/java/org/mule/el/mvel/MVELExpressionLanguageContext.java:172-186 | on a well-formed chain a base-class write is visible exactly when neither the own map nor any factory ahead of the local factory holds the name |
| Contexts.AddVariable | core/src/main/java/org/mule/el/mvel/MVELExpressionLanguageContext.java:115-120 | writes a plain variable holding the value through `addResolver`'s routing |
| Precedence.AddVariableThenGet | core/src/main/java/org/mule/el/mvel/MVELExpressionLanguageContext.java:115-120 | a variable added where the write is visible is read back by `getVariable`, unless a private variable of that name shadows it |
| Contexts.AddVariableWithCallback | core/src/main/java/org/mule/el/mvel/MVELExpressionLanguageContext.java:122-127 | writes a variable whose assignments go to the given callback, through `addResolver`'s routing |
| Contexts.AddFinalVariable | core/src/main/java/org/mule/el/mvel/MVELExpressionLanguageContext.java:129-141 | writes a variable whose callback rejects every assignment, through `addResolver`'s routing |
| Precedence.FinalRejectsCreate | core/src/main/java/org/mule/el/mvel/MVELExpressionLanguageContext.java:129-141 | assigning to a visible final variable through `createVariable` throws ImmutableElementException naming the variable, whatever other callbacks do |
| Contexts.AddAlias | core/src/main/java/org/mule/el/mvel/MVELExpressionLanguageContext.java:188-192 | writes an alias resolver for the expression through `addResolver`'s routing |
| Contexts.DeclareFunction | core/src/main/java/org/mule/el/mvel/MVELExpressionLanguageContext.java:227-232 | binds the given function object as a final variable of the function's name |
| Resolvers.SetValue | core/src/main/java/org/mule/el/mvel/MVELExpressionLanguageContext.java:100-103 | assignment to a final variable throws ImmutableElementException naming it; a callback or an alias throws exactly when the assignment it hands on throws; a plain variable then yields the new value; an accepted handed-on assignment leaves the resolver as it was |
| Resolvers.AssignThenRead | core/src/main/java/org/mule/el/mvel/MVELExpressionLanguageContext.java:100-103 | after an accepted assignment, a plain variable yields the assigned value and any other resolver yields what it yielded before, with the evaluation of aliases held fixed |
| Contexts.CreateVariable | core/src/main/java/org/mule/el/mvel/MVELExpressionLanguageContext.java:93-109 | an unresolvable name gets a fresh plain variable through `addResolver`; a resolvable name is assigned through the resolver found, and fails exactly when that assignment throws, with its exception; on success the context is the one where the assigned resolver replaces the found one in place, the name then resolves to it, no map gains or loses a name, and the chain keeps its shape (apart from what a handed-on assignment does itself) |
| Contexts.SetInContext | core/src/main/java/org/mule/el/mvel/MVELExpressionLanguageContext.java:98-103 | the assigned resolver replaces the one found where it was found: in the own map when the name is there, with the chain untouched, and otherwise in the chain at its first holder, with the own map untouched; the name's lookup now yields it, no map gains a name, and no other name's lookup changes |
| Chain.SetInPlace | core/src/main/java/org/mule/el/mvel/MVELExpressionLanguageContext.java:98-103 | in the chain, the resolver found is replaced in the first factory holding the name and nowhere else, and that factory's entries for other names are kept; every other factory, including those the local factory leads when the walk does not reach it, and the local factory (unless it is that factory) are unchanged; the walk then yields the new resolver for the name and the old answer for every other name; a name no factory holds leaves the chain unchanged |
| Precedence.CreateThenGet | core/src/main/java/org/mule/el/mvel/MVELExpressionLanguageContext.java:93-109 | `createVariable` then `getVariable` yields the assigned value, both when the name already resolved to a plain variable and when it did not resolve and the new variable is visible |
| Precedence.CreateKeepsOtherNames | core/src/main/java/org/mule/el/mvel/MVELExpressionLanguageContext.java:93-109 | `createVariable` leaves the lookup of every other name unchanged, apart from what a handed-on assignment does itself |
| Chain.FirstInternal | core/src/main/java/org/mule/el/mvel/MVELExpressionLanguageContext.java:244-249 | the position where the walk of `appendFactory` stops: no internal factory before it, and an internal one at it unless it is the end |
| Chain.Append | core/src/main/java/org/mule/el/mvel/MVELExpressionLanguageContext.java:234-253 | on a null chain the call throws NullPointerException; otherwise the walk keeps the non-internal head run in order, then meets the new factory, then the local factory followed by the chain the local factory already led |
| Chain.AppendByWalk | core/src/main/java/org/mule/el/mvel/MVELExpressionLanguageContext.java:234-253 | the source's head test and `vrf` walk compute exactly that splice |
| Chain.AppendBeforeLocal | core/src/main/java/org/mule/el/mvel/MVELExpressionLanguageContext.java:234-253 | on a well-formed chain the new factory is inserted immediately before the local factory, every other factory keeps its relative order, and the chain stays well formed when the new factory is not internal |
| Chain.AppendPrecedence | core/src/main/java/org/mule/el/mvel/MVELExpressionLanguageContext.java:172-175 | after an append the new factory answers a name exactly when no factory ahead of the local factory holds it, ahead of the local factory; otherwise the answer is unchanged |
| Contexts.AppendFactory | core/src/main/java/org/mule/el/mvel/MVELExpressionLanguageContext.java:234-253 | the context's chain is spliced as above and nothing else in the context changes; a null chain throws |
| Precedence.AppendedFactoryPrecedence | core/src/main/java/org/mule/el/mvel/MVELExpressionLanguageContext.java:172-175 | a variable kept in the local factory loses to an appended factory that holds the same name, while the context's own map still comes first |
| Chain.Insert | core/src/main/java/org/mule/el/mvel/MVELExpressionLanguageContext.java:255-267 | the walk meets the new factory first, then the old chain unchanged; on a null chain it meets the chain the new factory already led |
| Chain.InsertKeepsShape | core/src/main/java/org/mule/el/mvel/MVELExpressionLanguageContext.java:255-267 | inserting a factory that is not internal keeps a well-formed chain well formed |
| Chain.InsertPrecedence | core/src/main/java/org/mule/el/mvel/MVELExpressionLanguageContext.java:255-267 | on a non-null chain the inserted factory answers a name it holds ahead of every factory already in the chain; otherwise the answer is unchanged |
| Contexts.InsertFactory | core/src/main/java/org/mule/el/mvel/MVELExpressionLanguageContext.java:255-267 | the context's chain gets the new head and nothing else in the context changes |
| Precedence.InsertedFactoryPrecedence | core/src/main/java/org/mule/el/mvel/MVELExpressionLanguageContext.java:255-267 | after an insert into a non-null chain, the lookup consults the own map, then the inserted factory, then the previous chain |
| Precedence.WritesKeepWellFormed | core/src/main/java/org/mule/el/mvel/MVELExpressionLanguageContext.java:93-109 | `addResolver`, `addPrivateVariable` and `createVariable` keep the chain well formed |
| Precedence.SplicesKeepWellFormed | core/src/main/java/org/mule/el/mvel/MVELExpressionLanguageContext.java:234-267 | appending or inserting a factory that is not internal keeps the chain well formed |
| Imports.ImportClassNamed | core/src/main/java/org/mule/el/mvel/MVELExpressionLanguageContext.java:203-210 | `importClass(name, clazz)` is first-wins: an existing import under the name is kept, and otherwise the class is added |
| Imports.ImportStaticMethod | core/src/main/java/org/mule/el/mvel/MVELExpressionLanguageContext.java:212-219 | `importStaticMethod` is first-wins in the same way |
| Imports.FirstWins | core/src/main/java/org/mule/el/mvel/MVELExpressionLanguageContext.java:203-219 | a first-wins add keeps every existing entry and adds only the one name, bound to the entry when it was free |
| Imports.ImportsNeverOverwrite | core/src/main/java/org/mule/el/mvel/MVELExpressionLanguageContext.java:203-219 | once a name is imported, importing a class or a static method under it leaves the table unchanged |
| Imports.ImportClass | core/src/main/java/org/mule/el/mvel/MVELExpressionLanguageContext.java:194-201 | as written, `importClass(clazz)` never adds a new name; when the simple name is already imported, it is rebound to the class, and every other entry is kept |
| Imports.ImportClassAsWrittenMisses | core/src/main/java/org/mule/el/mvel/MVELExpressionLanguageContext.java:194-201 | a class imported into an empty table is not imported, and a second class with a taken simple name replaces the first |
| Imports.ImportClassFirstWins | core/src/main/java/org/mule/el/mvel/MVELExpressionLanguageContext.java:194-201 | the corrected guard is first-wins under the class's simple name |
| Imports.ImportClassFirstWinsAgrees | core/src/main/java/org/mule/el/mvel/MVELExpressionLanguageContext.java:194-210 | the corrected guard equals `importClass(simpleName, clazz)` and imports the class when its simple name is free |

## Left out

- The asynchronous continuation servlet (`JettyContinuationsReceiverServlet`). It is a
  cross-thread protocol around Jetty's `Continuation` and servlet I/O. Neither belongs to
  this core, and Jetty is not part of this model.
- The performance test case. It is a timing benchmark that needs the full runtime.
- The copy constructor (lines 50-57). It shares the mutable maps and chain of another
  context. This value model has no aliasing.
- `getVariable(name, type)` (lines 165-170). It is an unchecked cast of `getVariable(name)`.
- The declared type that `createVariable` and `addVariable` hand to `MuleVariableResolver`.
  It does not affect lookup.
- `setNextFactory`, inherited from the MVEL base class, is not modelled as an operation.
  Its effects can still be represented: a chain that does not reach the local factory, and
  a chain led by the local factory itself.
- Object identity. Each factory passed to `appendFactory` or `insertFactory` is assumed to
  be a new object, different from the local factory. The chain a factory passed to
  `insertFactory` already leads is assumed not to reach this context's local factory. The
  model does not cover sharing one resolver or factory object between places, inserting
  the same factory twice (which makes a cycle), or appending the local factory to itself.
- Chain factories are reduced to their resolver maps and answer "own resolvers, then next
  factory". The MVEL factory classes are not part of this model, so their `variables`
  maps and their exception for an unknown name are not modelled. The context only asks
  the chain for a name it already knows is resolvable.
- Resolvers held by foreign factories are modelled with the same two shapes as the
  context's own: a variable or an alias. Other resolver classes are not modelled.
- `ParserConfiguration` is not part of this model. Its import table is a map, and
  `hasImport` is modelled as key membership; MVEL's class-loading fallback in `hasImport`
  is not modelled. `addImport(clazz)` is taken to bind the class under its simple name.
- Resolvers.SetValue: an assignment handed to a user callback or to an alias is modelled
  only by whether it throws, which the caller supplies. Its other effects belong to code
  that is not part of this model, so the resolver itself is left unchanged.
- Contexts.CreateVariable: its frame (no map gains or loses a name, the chain keeps its
  shape) leaves out whatever an accepted callback or alias assignment does to the context
  itself. An alias resolver holds this very context, and a callback is arbitrary code.
  Neither is part of this model.
- Precedence.CreateKeepsOtherNames: other names keep their lookup only as far as the
  handed-on assignment of a callback or alias leaves the context alone. That assignment's
  effects are not modelled.
- Resolvers.AssignThenRead: an alias reads back its old value only because alias
  evaluation is a fixed parameter. In the source the alias assigns through this very
  context and is then evaluated in the changed context. That read-back is not modelled.
- Resolvers.ValueOf: the value of an alias is the caller-supplied `evalAlias` applied to
  its expression. Evaluating the expression in the parent context is not modelled.
- `muleContext` and the function adaptor that `declareFunction` builds are opaque values.

## Findings

| source | as written | input that shows it | evidently intended | confidence | as-written member | corrected member |
|---|---|---|---|---|---|---|
| core/src/main/java/org/mule/el/mvel/MVELExpressionLanguageContext.java:197 | `importClass(clazz)` adds the class only when its simple name is already imported, and then replaces that import | an empty import table and `importClass(java.util.List)`: the table stays empty. A table holding `List` and `importClass(java.awt.List)`: the first import is replaced | the negated guard, first-wins like `importClass(name, clazz)` and `importStaticMethod` at lines 206 and 215 | medium, not executed | Imports.ImportClass, Imports.ImportClassAsWrittenMisses | Imports.ImportClassFirstWins, Imports.ImportClassFirstWinsAgrees |

=== FILE: chain.dfy ===
/** The `nextFactory` chain of resolver factories behind a context.
    Following `nextFactory` links from the context meets some factories, then possibly the
    context's own InternalVariableResolverFactory (its `localFactory`), then the factories
    that the local factory itself links to. The local factory's resolver map is held once,
    in `FactoryChain.local`; `Links` spells the chain out as the walk sees it. */
module Chain {
  import opened Wrappers
  import opened Resolvers

  /** A factory from outside the context, reduced to its resolvers; `internal` marks an
      InternalVariableResolverFactory (the local factory of some other context). */
  datatype Factory = Factory(internal: bool, resolvers: ResolverMap)

  /** One step of the walk: the context's own local factory, or another factory. */
  datatype Link = Local | Foreign(factory: Factory)

  /** `front` are the factories met before the local factory; `reachesLocal` says whether
      the walk reaches the local factory at all; `localNext` is the chain the local factory
      leads through its own `nextFactory`, kept even while the walk does not reach it. */
  datatype FactoryChain = FactoryChain(
    front: seq<Factory>,
    reachesLocal: bool,
    local: ResolverMap,
    localNext: seq<Factory>)

  function Foreigns(fs: seq<Factory>): seq<Link> {
    seq(|fs|, j requires 0 <= j < |fs| => Foreign(fs[j]))
  }

  /** The factories in the order the walk meets them. */
  function Links(ch: FactoryChain): (ls: seq<Link>)
    ensures |ls| == |ch.front| + if ch.reachesLocal then 1 + |ch.localNext| else 0
  {
    Foreigns(ch.front) + if ch.reachesLocal then [Local] + Foreigns(ch.localNext) else []
  }

  /** `instanceof InternalVariableResolverFactory` */
  predicate IsInternal(l: Link) {
    l.Local? || l.factory.internal
  }

  function ResolversOf(l: Link, local: ResolverMap): ResolverMap {
    match l
    case Local => local
    case Foreign(f) => f.resolvers
  }

  /** `isNextResolveable`: some factory of the chain has a resolver for `name`. */
  predicate Holds(links: seq<Link>, local: ResolverMap, name: string) {
    exists j :: 0 <= j < |links| && name in ResolversOf(links[j], local)
  }

  /** The chain's `getVariableResolver`: each factory answers from its own resolvers
      or passes the question to its next factory. */
  function Walk(links: seq<Link>, local: ResolverMap, name: string): (r: Option<Resolver>)
    ensures r.Some? <==> Holds(links, local, name)
    decreases |links|
  {
    if links == [] then None
    else if name in ResolversOf(links[0], local) then Some(ResolversOf(links[0], local)[name])
    else
      assert forall j :: 1 <= j < |links| ==> links[j] == links[1..][j - 1];
      Walk(links[1..], local, name)
  }

  /** Position of the first factory holding `name`, or |links| when none does. */
  function Holder(links: seq<Link>, local: ResolverMap, name: string): (k: nat)
    ensures k <= |links|
    ensures forall j :: 0 <= j < k ==> name !in ResolversOf(links[j], local)
    ensures k < |links| ==> name in ResolversOf(links[k], local)
    decreases |links|
  {
    if links == [] then 0
    else if name in ResolversOf(links[0], local) then 0
    else 1 + Holder(links[1..], local, name)
  }

  /** The walk answers with the resolver of the first factory holding the name. */
  lemma {:induction false} WalkFindsHolder(links: seq<Link>, local: ResolverMap, name: string)
    ensures var k := Holder(links, local, name);
            Walk(links, local, name) == if k < |links| then Some(ResolversOf(links[k], local)[name]) else None
    decreases |links|
  {
    if links != [] && name !in ResolversOf(links[0], local) {
      WalkFindsHolder(links[1..], local, name);
    }
  }

  /** A chain made of two parts answers from the first part when it can. */
  lemma {:induction false} WalkConcat(a: seq<Link>, b: seq<Link>, local: ResolverMap, name: string)
    ensures Walk(a + b, local, name) ==
            if Walk(a, local, name).Some? then Walk(a, local, name) else Walk(b, local, name)
    decreases |a|
  {
    if a == [] {
      assert a + b == b;
    } else {
      assert (a + b)[0] == a[0];
      assert (a + b)[1..] == a[1..] + b;
      WalkConcat(a[1..], b, local, name);
    }
  }

  /** Position of the first internal factory, or |links| when there is none. */
  function FirstInternal(links: seq<Link>): (k: nat)
    ensures k <= |links|
    ensures forall j :: 0 <= j < k ==> !IsInternal(links[j])
    ensures k < |links| ==> IsInternal(links[k])
    decreases |links|
  {
    if links == [] then 0
    else if IsInternal(links[0]) then 0
    else 1 + FirstInternal(links[1..])
  }

  /** The declarative description of `FirstInternal` pins it down: a position with no
      internal factory before it and an internal one at it (or the end) is the first one. */
  lemma {:induction false} FirstInternalUnique(links: seq<Link>, k: nat)
    requires k <= |links|
    requires forall j :: 0 <= j < k ==> !IsInternal(links[j])
    requires k < |links| ==> IsInternal(links[k])
    ensures FirstInternal(links) == k
    decreases |links|
  {
    if links != [] && k > 0 {
      assert !IsInternal(links[0]);
      FirstInternalUnique(links[1..], k - 1);
    }
  }

  /** `after` keeps the run of non-internal factories that heads `before`, then has `f`,
      then the local factory followed by the chain `localNext` it leads. */
  predicate SplicedBeforeInternal(before: seq<Link>, f: Factory, localNext: seq<Factory>, after: seq<Link>) {
    && |after| >= 2 + |localNext|
    && var k := |after| - 2 - |localNext|;
    && k <= |before|
    && after[..k] == before[..k]
    && (forall j :: 0 <= j < k ==> !IsInternal(before[j]))
    && (k < |before| ==> IsInternal(before[k]))
    && after[k] == Foreign(f)
    && after[k + 1] == Local
    && after[k + 2..] == Foreigns(localNext)
  }

  /** `appendFactory` on the chain: `f` goes just before the first internal factory and is
      linked to the local factory, which keeps the chain it leads; on a null chain the walk
      dereferences null. */
  function Append(ch: FactoryChain, f: Factory): (r: Result<FactoryChain, Error>)
    ensures r.Failure? <==> Links(ch) == []
    ensures r.Failure? ==> r.error == NullPointer
    ensures r.Success? ==> r.value.local == ch.local && r.value.localNext == ch.localNext
    ensures r.Success? ==> SplicedBeforeInternal(Links(ch), f, ch.localNext, Links(r.value))
  {
    if ch.front == [] && !ch.reachesLocal then Failure(NullPointer)
    else
      var k := FirstInternal(Foreigns(ch.front));
      var after := FactoryChain(ch.front[..k] + [f], true, ch.local, ch.localNext);
      assert FirstInternal(Links(ch)) == k by {
        assert forall j :: 0 <= j < |ch.front| ==> Links(ch)[j] == Foreigns(ch.front)[j];
        FirstInternalUnique(Links(ch), k);
      }
      assert Links(after)[..k] == Links(ch)[..k];
      assert Links(after)[k + 2..] == Foreigns(ch.localNext);
      Success(after)
  }

  /** `appendFactory` as the source writes it: test the head, otherwise walk `vrf` forward
      while its next factory exists and is not internal, then relink. */
  method AppendByWalk(ch: FactoryChain, f: Factory) returns (r: Result<FactoryChain, Error>)
    ensures r == Append(ch, f)
  {
    var links := Links(ch);
    if |links| > 0 && IsInternal(links[0]) {
      assert ch.front[..0] + [f] == [f];
      assert |ch.front| > 0 ==> Foreigns(ch.front)[0] == links[0];
      return Success(FactoryChain([f], true, ch.local, ch.localNext));
    }
    if links == [] {
      return Failure(NullPointer);
    }
    var i := 0;
    while i + 1 < |links| && !IsInternal(links[i + 1])
      invariant 0 <= i < |ch.front|
      invariant forall j :: 0 <= j <= i ==> !IsInternal(links[j])
    {
      i := i + 1;
    }
    assert forall j :: 0 <= j < |ch.front| ==> links[j] == Foreigns(ch.front)[j];
    return Success(FactoryChain(ch.front[..i + 1] + [f], true, ch.local, ch.localNext));
  }

  /** `insertFactory`: `f` becomes the head. On a null chain `f` keeps the chain `fNext` it
      already led; otherwise its next link is overwritten with the old chain. */
  function Insert(ch: FactoryChain, f: Factory, fNext: seq<Factory>): (r: FactoryChain)
    ensures Links(r) == [Foreign(f)] + if Links(ch) == [] then Foreigns(fNext) else Links(ch)
    ensures r.local == ch.local && r.localNext == ch.localNext
  {
    if ch.front == [] && !ch.reachesLocal then FactoryChain([f] + fNext, false, ch.local, ch.localNext)
    else FactoryChain([f] + ch.front, ch.reachesLocal, ch.local, ch.localNext)
  }

  /** The shape a context's chain has from its constructor on: the walk reaches the local
      factory, and no internal factory comes before it. */
  predicate WellFormed(ch: FactoryChain) {
    && ch.reachesLocal
    && forall j :: 0 <= j < |ch.front| ==> !ch.front[j].internal
  }

  /** On a well-formed chain, appending inserts `f` immediately before the local factory,
      keeps every other factory where it was, and keeps the chain well formed. */
  lemma AppendBeforeLocal(ch: FactoryChain, f: Factory)
    requires WellFormed(ch)
    ensures Append(ch, f).Success?
    ensures var n := |ch.front|;
            Links(Append(ch, f).value) == Links(ch)[..n] + [Foreign(f)] + Links(ch)[n..]
    ensures !f.internal ==> WellFormed(Append(ch, f).value)
  {
    assert FirstInternal(Foreigns(ch.front)) == |ch.front|;
    var after := Append(ch, f).value;
    assert after.front == ch.front + [f];
  }

  /** On a well-formed chain the appended factory is consulted after every factory ahead
      of the local factory and before the local factory. */
  lemma AppendPrecedence(ch: FactoryChain, f: Factory, name: string)
    requires WellFormed(ch)
    ensures Append(ch, f).Success?
    ensures Walk(Links(Append(ch, f).value), ch.local, name) ==
              if !Holds(Foreigns(ch.front), ch.local, name) && name in f.resolvers then Some(f.resolvers[name])
              else Walk(Links(ch), ch.local, name)
  {
    AppendBeforeLocal(ch, f);
    var after := Append(ch, f).value;
    var tail := [Local] + Foreigns(ch.localNext);
    assert Links(ch) == Foreigns(ch.front) + tail;
    assert Foreigns(after.front) == Foreigns(ch.front) + [Foreign(f)];
    assert Links(after) == Foreigns(ch.front) + ([Foreign(f)] + tail);
    WalkConcat(Foreigns(ch.front), tail, ch.local, name);
    WalkConcat(Foreigns(ch.front), [Foreign(f)] + tail, ch.local, name);
    WalkConcat([Foreign(f)], tail, ch.local, name);
  }

  /** Inserting a factory that is not internal keeps a well-formed chain well formed. */
  lemma InsertKeepsShape(ch: FactoryChain, f: Factory, fNext: seq<Factory>)
    requires WellFormed(ch)
    requires !f.internal
    ensures WellFormed(Insert(ch, f, fNext))
  {
    var after := Insert(ch, f, fNext);
    assert after.front == [f] + ch.front;
    assert forall j :: 1 <= j < |after.front| ==> after.front[j] == ch.front[j - 1];
  }

  /** The inserted factory is consulted before every factory already in the chain. */
  lemma InsertPrecedence(ch: FactoryChain, f: Factory, fNext: seq<Factory>, name: string)
    requires Links(ch) != []
    ensures Walk(Links(Insert(ch, f, fNext)), ch.local, name) ==
            if name in f.resolvers then Some(f.resolvers[name]) else Walk(Links(ch), ch.local, name)
  {
    WalkConcat([Foreign(f)], Links(ch), ch.local, name);
  }

  /** Whether a walk for `name` reaches the local factory before any foreign factory
      holding `name`: exactly when a resolver written into the local factory is found. */
  predicate ReachesLocal(links: seq<Link>, name: string)
    decreases |links|
  {
    if links == [] then false
    else if links[0].Local? then true
    else if name in links[0].factory.resolvers then false
    else ReachesLocal(links[1..], name)
  }

  /** Writing `name` into the local factory changes the walk for `name` exactly when the
      walk reaches the local factory first. */
  lemma {:induction false} WalkAfterLocalWrite(links: seq<Link>, local: ResolverMap, name: string, r: Resolver)
    ensures Walk(links, local[name := r], name) ==
            if ReachesLocal(links, name) then Some(r) else Walk(links, local, name)
    decreases |links|
  {
    if links != [] && links[0].Foreign? && name !in links[0].factory.resolvers {
      WalkAfterLocalWrite(links[1..], local, name, r);
    }
  }

  /** The walk for one name looks only at the entries of that name. */
  lemma {:induction false} WalkOtherName(links: seq<Link>, links': seq<Link>, local: ResolverMap, local': ResolverMap, name: string)
    requires |links'| == |links|
    requires forall j :: 0 <= j < |links| ==>
               (name in ResolversOf(links'[j], local') <==> name in ResolversOf(links[j], local))
    requires forall j :: 0 <= j < |links| && name in ResolversOf(links[j], local) ==>
               ResolversOf(links'[j], local')[name] == ResolversOf(links[j], local)[name]
    ensures Walk(links', local', name) == Walk(links, local, name)
    decreases |links|
  {
    if links != [] && name !in ResolversOf(links[0], local) {
      assert forall j :: 1 <= j < |links| ==> links[j] == links[1..][j - 1] && links'[j] == links'[1..][j - 1];
      WalkOtherName(links[1..], links'[1..], local, local', name);
    }
  }

  /** Two chains have the same factories in the same places, holding the same names. */
  predicate SameShape(ch: FactoryChain, ch': FactoryChain) {
    && ch'.reachesLocal == ch.reachesLocal
    && |ch'.front| == |ch.front|
    && |ch'.localNext| == |ch.localNext|
    && ch'.local.Keys == ch.local.Keys
    && (forall j :: 0 <= j < |ch.front| ==>
          ch'.front[j].internal == ch.front[j].internal && ch'.front[j].resolvers.Keys == ch.front[j].resolvers.Keys)
    && (forall j :: 0 <= j < |ch.localNext| ==>
          ch'.localNext[j].internal == ch.localNext[j].internal && ch'.localNext[j].resolvers.Keys == ch.localNext[j].resolvers.Keys)
  }

  /** Replaces the resolver of `name` in the factory `l`. */
  function Rebind(f: Factory, name: string, r: Resolver): Factory {
    f.(resolvers := f.resolvers[name := r])
  }

  /** Replaces the resolver of `name` in the factory at position `k` of the walk, which
      already holds `name`. */
  function RebindAt(ch: FactoryChain, k: nat, name: string, r: Resolver): (ch': FactoryChain)
    requires k < |Links(ch)|
    requires name in ResolversOf(Links(ch)[k], ch.local)
    ensures SameShape(ch, ch')
  {
    var n := |ch.front|;
    if k < n then
      assert name in ch.front[k].resolvers;
      ch.(front := ch.front[k := Rebind(ch.front[k], name, r)])
    else if k == n then ch.(local := ch.local[name := r])
    else
      assert name in ch.localNext[k - n - 1].resolvers;
      ch.(localNext := ch.localNext[k - n - 1 := Rebind(ch.localNext[k - n - 1], name, r)])
  }

  /** Rebinding at position `k` touches that factory only. */
  lemma RebindAtLinks(ch: FactoryChain, k: nat, name: string, r: Resolver)
    requires k < |Links(ch)|
    requires name in ResolversOf(Links(ch)[k], ch.local)
    ensures var ch' := RebindAt(ch, k, name, r);
            if Links(ch)[k].Local? then Links(ch') == Links(ch) && ch'.local == ch.local[name := r]
            else Links(ch') == Links(ch)[k := Foreign(Rebind(Links(ch)[k].factory, name, r))] && ch'.local == ch.local
  {
    var n := |ch.front|;
    var ch' := RebindAt(ch, k, name, r);
    var tail := if ch.reachesLocal then [Local] + Foreigns(ch.localNext) else [];
    if k < n {
      assert Foreigns(ch'.front) == Foreigns(ch.front)[k := Foreign(Rebind(ch.front[k], name, r))];
      assert Links(ch') == Foreigns(ch'.front) + tail;
    } else if k > n {
      var i := k - n - 1;
      assert Foreigns(ch'.localNext) == Foreigns(ch.localNext)[i := Foreign(Rebind(ch.localNext[i], name, r))];
      assert Links(ch') == Foreigns(ch.front) + ([Local] + Foreigns(ch'.localNext));
    }
  }

  /** `vr.setValue(..)` on the resolver the walk found: that resolver is replaced by `r`
      where it lives, in the first factory holding `name`, and that factory's other entries
      are kept. No factory gains a name, every other factory is untouched, and the walk for
      every other name is unchanged. */
  function SetInPlace(ch: FactoryChain, name: string, r: Resolver): (ch': FactoryChain)
    ensures SameShape(ch, ch')
    ensures var links := Links(ch);
            var k := Holder(links, ch.local, name);
            && (forall j :: 0 <= j < |links| && j != k ==> Links(ch')[j] == links[j])
            && (k < |links| && links[k].Foreign? ==> ch'.local == ch.local)
            && (k < |links| ==> ResolversOf(Links(ch')[k], ch'.local) == ResolversOf(links[k], ch.local)[name := r])
    ensures Holds(Links(ch), ch.local, name) ==> Walk(Links(ch'), ch'.local, name) == Some(r)
    ensures !Holds(Links(ch), ch.local, name) ==> ch' == ch
    ensures !ch.reachesLocal ==> ch'.localNext == ch.localNext
    ensures forall n :: n != name ==> Walk(Links(ch'), ch'.local, n) == Walk(Links(ch), ch.local, n)
  {
    var k := Holder(Links(ch), ch.local, name);
    if k == |Links(ch)| then ch
    else
      SetInPlaceFrame(ch, k, name, r);
      SetInPlaceFinds(ch, RebindAt(ch, k, name, r), k, name, r);
      SetInPlaceOtherNames(ch, RebindAt(ch, k, name, r), k, name, r);
      RebindAt(ch, k, name, r)
  }

  /** Rebinding at the first holder of `name` changes that factory's entry for `name` and
      nothing else. */
  lemma SetInPlaceFrame(ch: FactoryChain, k: nat, name: string, r: Resolver)
    requires k == Holder(Links(ch), ch.local, name) && k < |Links(ch)|
    ensures var links, ch' := Links(ch), RebindAt(ch, k, name, r);
            && (forall j :: 0 <= j < |links| && j != k ==> Links(ch')[j] == links[j])
            && (links[k].Foreign? ==> ch'.local == ch.local)
            && ResolversOf(Links(ch')[k], ch'.local) == ResolversOf(links[k], ch.local)[name := r]
  {
    RebindAtLinks(ch, k, name, r);
  }

  /** After rebinding at the first holder of `name`, the walk for `name` finds `r`. */
  lemma SetInPlaceFinds(ch: FactoryChain, ch': FactoryChain, k: nat, name: string, r: Resolver)
    requires k == Holder(Links(ch), ch.local, name) && k < |Links(ch)|
    requires ch' == RebindAt(ch, k, name, r)
    ensures Walk(Links(ch'), ch'.local, name) == Some(r)
  {
    RebindAtLinks(ch, k, name, r);
    var links, links' := Links(ch), Links(ch');
    assert |links'| == |links|;
    assert name in ResolversOf(links'[k], ch'.local);
    assert forall j :: 0 <= j < k ==> links'[j] == links[j];
    WalkFindsHolder(links', ch'.local, name);
  }

  /** Rebinding `name` at its first holder leaves the walk for every other name unchanged. */
  lemma SetInPlaceOtherNames(ch: FactoryChain, ch': FactoryChain, k: nat, name: string, r: Resolver)
    requires k == Holder(Links(ch), ch.local, name) && k < |Links(ch)|
    requires ch' == RebindAt(ch, k, name, r)
    ensures forall n :: n != name ==> Walk(Links(ch'), ch'.local, n) == Walk(Links(ch), ch.local, n)
  {
    forall n | n != name
      ensures Walk(Links(ch'), ch'.local, n) == Walk(Links(ch), ch.local, n)
    {
      SetInPlaceOtherName(ch, ch', k, name, r, n);
    }
  }

  /** Rebinding `name` at its first holder leaves the walk for any other name unchanged. */
  lemma SetInPlaceOtherName(ch: FactoryChain, ch': FactoryChain, k: nat, name: string, r: Resolver, n: string)
    requires k == Holder(Links(ch), ch.local, name) && k < |Links(ch)|
    requires ch' == RebindAt(ch, k, name, r)
    requires n != name
    ensures Walk(Links(ch'), ch'.local, n) == Walk(Links(ch), ch.local, n)
  {
    RebindAtLinks(ch, k, name, r);
    WalkOtherName(Links(ch), Links(ch'), ch.local, ch'.local, n);
  }
}

=== FILE: context.dfy ===
/** MVELExpressionLanguageContext: private variables, the context's own resolvers, and
    the chain of factories behind it, with the order in which names are looked up and
    the rule that decides where a new variable is written. */
module Contexts {
  import opened Wrappers
  import opened Resolvers
  import opened Chain

  /** `subclass` is true when the object is of a subclass of MVELExpressionLanguageContext,
      which changes where `addResolver` writes. `variableResolvers` is the context's own
      resolver map; `next` is its factory chain together with its local factory. */
  datatype Context = Context(
    subclass: bool,
    privateVariables: map<string, Value>,
    variableResolvers: ResolverMap,
    next: FactoryChain)

  /** The constructor: no variables anywhere, and the chain is the local factory alone. */
  function NewContext(subclass: bool): (c: Context)
    ensures c.subclass == subclass
    ensures c.privateVariables == map[] && c.variableResolvers == map[]
    ensures Links(c.next) == [Local] && c.next.local == map[]
    ensures WellFormed(c.next)
  {
    Context(subclass, map[], map[], FactoryChain([], true, map[], []))
  }

  predicate IsTarget(c: Context, name: string) {
    name in c.variableResolvers
  }

  predicate IsNextResolveable(c: Context, name: string) {
    Holds(Links(c.next), c.next.local, name)
  }

  /** `isResolveable`: the context holds the name, or the walk along its chain finds it. */
  function IsResolveable(c: Context, name: string): (b: bool)
    ensures b <==> IsTarget(c, name) || Walk(Links(c.next), c.next.local, name).Some?
  {
    IsTarget(c, name) || IsNextResolveable(c, name)
  }

  /** `getVariableResolver`: the context's own resolver first, then the chain; null when
      neither knows the name. */
  function GetVariableResolver(c: Context, name: string): (r: Option<Resolver>)
    ensures r.Some? <==> IsResolveable(c, name)
    ensures IsTarget(c, name) ==> r == Some(c.variableResolvers[name])
    ensures !IsTarget(c, name) ==> r == Walk(Links(c.next), c.next.local, name)
  {
    if IsResolveable(c, name) then
      if name in c.variableResolvers then Some(c.variableResolvers[name])
      else Walk(Links(c.next), c.next.local, name)
    else None
  }

  /** `contains`: exactly the names `getVariableResolver` finds a resolver for. */
  function Contains(c: Context, name: string): (b: bool)
    ensures b <==> GetVariableResolver(c, name).Some?
    ensures b <==> name in c.variableResolvers || Walk(Links(c.next), c.next.local, name).Some?
  {
    IsResolveable(c, name)
  }

  /** `getVariable`: a private variable wins outright; otherwise the value of the resolver
      found, or null. */
  function GetVariable(c: Context, name: string, evalAlias: string -> Value): (v: Value)
    ensures name in c.privateVariables ==> v == c.privateVariables[name]
    ensures name !in c.privateVariables && !IsResolveable(c, name) ==> v == Null
    ensures name !in c.privateVariables && IsResolveable(c, name) ==>
              v == ValueOf(GetVariableResolver(c, name).value, evalAlias)
  {
    if name in c.privateVariables then c.privateVariables[name]
    else
      match GetVariableResolver(c, name)
      case Some(r) => ValueOf(r, evalAlias)
      case None => Null
  }

  /** What `addResolver` promises: the base class writes into its local factory and leaves
      its own map alone; a subclass writes into its own map and leaves the chain alone.
      Either way the write is a map put, replacing an entry of the same name. */
  predicate Routed(c: Context, c': Context, name: string, r: Resolver) {
    && c'.subclass == c.subclass
    && c'.privateVariables == c.privateVariables
    && c'.next == c.next.(local := c'.next.local)
    && (!c.subclass ==> c'.variableResolvers == c.variableResolvers && c'.next.local == c.next.local[name := r])
    && (c.subclass ==> c'.next.local == c.next.local && c'.variableResolvers == c.variableResolvers[name := r])
  }

  function AddResolver(c: Context, name: string, r: Resolver): (c': Context)
    ensures Routed(c, c', name, r)
  {
    if !c.subclass then c.(next := c.next.(local := c.next.local[name := r]))
    else c.(variableResolvers := c.variableResolvers[name := r])
  }

  function AddVariable(c: Context, name: string, value: Value): (c': Context)
    ensures Routed(c, c', name, Variable(name, value, Store))
  {
    AddResolver(c, name, Variable(name, value, Store))
  }

  /** `addVariable` with a VariableAssignmentCallback, identified by `callback`. */
  function AddVariableWithCallback(c: Context, name: string, value: Value, callback: nat): (c': Context)
    ensures Routed(c, c', name, Variable(name, value, Callback(callback)))
  {
    AddResolver(c, name, Variable(name, value, Callback(callback)))
  }

  /** `addFinalVariable`: a variable whose callback rejects every assignment. */
  function AddFinalVariable(c: Context, name: string, value: Value): (c': Context)
    ensures Routed(c, c', name, Variable(name, value, Reject))
  {
    AddResolver(c, name, Variable(name, value, Reject))
  }

  function AddAlias(c: Context, alias: string, expression: string): (c': Context)
    ensures Routed(c, c', alias, Alias(alias, expression))
  {
    AddResolver(c, alias, Alias(alias, expression))
  }

  /** `declareFunction`: the function object, identified by `impl`, is bound as a final
      variable. */
  function DeclareFunction(c: Context, name: string, impl: nat): (c': Context)
    ensures Routed(c, c', name, Variable(name, FunctionInstance(name, impl), Reject))
  {
    AddFinalVariable(c, name, FunctionInstance(name, impl))
  }

  function AddPrivateVariable(c: Context, name: string, value: Value): (c': Context)
    ensures c'.privateVariables == c.privateVariables[name := value]
    ensures c'.subclass == c.subclass && c'.variableResolvers == c.variableResolvers && c'.next == c.next
  {
    c.(privateVariables := c.privateVariables[name := value])
  }

  /** No map of the context gains or loses a name, and nothing else changes shape. */
  predicate NoResolverAdded(c: Context, c': Context) {
    && c'.subclass == c.subclass
    && c'.privateVariables == c.privateVariables
    && c'.variableResolvers.Keys == c.variableResolvers.Keys
    && SameShape(c.next, c'.next)
  }

  /** The resolver `setValue` replaced stays where the old one was found: the lookup of
      `name` now yields it, no map gains a name, and no other name's lookup changes. */
  function SetInContext(c: Context, name: string, r: Resolver): (c': Context)
    requires IsResolveable(c, name)
    ensures NoResolverAdded(c, c')
    ensures GetVariableResolver(c', name) == Some(r)
    ensures forall n :: n != name ==> GetVariableResolver(c', n) == GetVariableResolver(c, n)
    ensures IsTarget(c, name) ==> c' == c.(variableResolvers := c.variableResolvers[name := r])
    ensures !IsTarget(c, name) ==> c' == c.(next := SetInPlace(c.next, name, r))
  {
    if name in c.variableResolvers then c.(variableResolvers := c.variableResolvers[name := r])
    else c.(next := SetInPlace(c.next, name, r))
  }

  /** `createVariable`: a name that resolves is assigned through the resolver found, which
      may throw; any other name gets a fresh variable through `addResolver`. Returns the
      updated context and the resolver. */
  function CreateVariable(c: Context, name: string, value: Value, delegate: Delegate): (r: Result<(Context, Resolver), Error>)
    ensures !IsResolveable(c, name) ==>
              && r.Success?
              && r.value.1 == Variable(name, value, Store)
              && Routed(c, r.value.0, name, Variable(name, value, Store))
    ensures IsResolveable(c, name) ==>
              var found := GetVariableResolver(c, name).value;
              && (r.Failure? <==> SetValue(found, value, delegate).Failure?)
              && (r.Failure? ==> r.error == SetValue(found, value, delegate).error)
              && (r.Success? ==> NoResolverAdded(c, r.value.0) && r.value.1 == SetValue(found, value, delegate).value)
    ensures IsResolveable(c, name) && r.Success? ==> GetVariableResolver(r.value.0, name) == Some(r.value.1)
    ensures IsResolveable(c, name) && r.Success? ==> r.value.0 == SetInContext(c, name, r.value.1)
  {
    match GetVariableResolver(c, name)
    case Some(vr) =>
      (match SetValue(vr, value, delegate)
       case Failure(e) => Failure(e)
       case Success(vr') => Success((SetInContext(c, name, vr'), vr')))
    case None =>
      var vr := Variable(name, value, Store);
      Success((AddResolver(c, name, vr), vr))
  }

  /** `appendFactory`: `f` is spliced in before the first internal factory, which on a
      context's own chain is its local factory; throws on a null chain. */
  function AppendFactory(c: Context, f: Factory): (r: Result<Context, Error>)
    ensures r.Failure? <==> Links(c.next) == []
    ensures r.Success? ==>
              && r.value == c.(next := r.value.next)
              && r.value.next.local == c.next.local
              && SplicedBeforeInternal(Links(c.next), f, c.next.localNext, Links(r.value.next))
  {
    match Append(c.next, f)
    case Failure(e) => Failure(e)
    case Success(ch) => Success(c.(next := ch))
  }

  /** `insertFactory`: `f` becomes the head of the chain; `fNext` is the chain `f` already
      leads, which it keeps only when the context's chain is null. */
  function InsertFactory(c: Context, f: Factory, fNext: seq<Factory>): (c': Context)
    ensures c' == c.(next := c'.next) && c'.next.local == c.next.local
    ensures Links(c'.next) == [Foreign(f)] + if Links(c.next) == [] then Foreigns(fNext) else Links(c.next)
  {
    c.(next := Insert(c.next, f, fNext))
  }
}

=== FILE: imports.dfy ===
/** The import guards of the context, over the parser configuration's import table
    (name to imported class or static method). */
module Imports {

  datatype ClassRef = ClassRef(qualifiedName: string, simpleName: string)
  datatype MethodRef = MethodRef(owner: string, methodName: string)
  datatype Import = ClassImport(cls: ClassRef) | MethodImport(staticMethod: MethodRef)

  type ImportTable = map<string, Import>

  /** Adding `entry` under `name` unless the name is already taken. */
  function FirstWins(table: ImportTable, name: string, entry: Import): (t': ImportTable)
    ensures t'.Keys == table.Keys + {name}
    ensures forall n :: n in table ==> t'[n] == table[n]
    ensures name !in table ==> t'[name] == entry
  {
    if name in table then table else table[name := entry]
  }

  /** `importClass(name, clazz)` */
  function ImportClassNamed(table: ImportTable, name: string, cls: ClassRef): (t': ImportTable)
    ensures t' == FirstWins(table, name, ClassImport(cls))
  {
    if name !in table then table[name := ClassImport(cls)] else table
  }

  /** `importStaticMethod(name, method)` */
  function ImportStaticMethod(table: ImportTable, name: string, m: MethodRef): (t': ImportTable)
    ensures t' == FirstWins(table, name, MethodImport(m))
  {
    if name !in table then table[name := MethodImport(m)] else table
  }

  /** An import is never displaced: once a name is taken, further imports under it,
      of a class or of a method, leave the table as it is. */
  lemma ImportsNeverOverwrite(table: ImportTable, name: string, cls: ClassRef, m: MethodRef)
    requires name in table
    ensures ImportClassNamed(table, name, cls) == table
    ensures ImportStaticMethod(table, name, m) == table
  {
  }

  /** `importClass(clazz)` as written: the class is added under its simple name only when
      that name is already imported, replacing the earlier import. */
  function ImportClass(table: ImportTable, cls: ClassRef): (t': ImportTable)
    ensures t'.Keys == table.Keys
    ensures cls.simpleName in table ==> t'[cls.simpleName] == ClassImport(cls)
    ensures forall n :: n in table && n != cls.simpleName ==> t'[n] == table[n]
  {
    if cls.simpleName in table then table[cls.simpleName := ClassImport(cls)] else table
  }

  /** As written, importing a class into an empty table imports nothing, and a second
      class with a taken simple name replaces the first. */
  lemma ImportClassAsWrittenMisses()
    ensures ImportClass(map[], ClassRef("java.util.List", "List")) == map[]
    ensures var t := map["List" := ClassImport(ClassRef("java.util.List", "List"))];
            ImportClass(t, ClassRef("java.awt.List", "List"))["List"] == ClassImport(ClassRef("java.awt.List", "List"))
  {
  }

  /** `importClass(clazz)` guarded like the other two imports: first wins. */
  function ImportClassFirstWins(table: ImportTable, cls: ClassRef): (t': ImportTable)
    ensures t' == FirstWins(table, cls.simpleName, ClassImport(cls))
  {
    if cls.simpleName !in table then table[cls.simpleName := ClassImport(cls)] else table
  }

  /** The corrected guard imports a class under its simple name when that name is free,
      and agrees with `importClass(name, clazz)` called with the simple name. */
  lemma ImportClassFirstWinsAgrees(table: ImportTable, cls: ClassRef)
    ensures ImportClassFirstWins(table, cls) == ImportClassNamed(table, cls.simpleName, cls)
    ensures cls.simpleName !in table ==> ImportClassFirstWins(table, cls)[cls.simpleName] == ClassImport(cls)
  {
  }
}

=== FILE: precedence.dfy ===
/** How the context's operations interact: which binding a lookup sees, where a write
    becomes visible, and how the shape of the factory chain is kept. */
module Precedence {
  import opened Wrappers
  import opened Resolvers
  import opened Chain
  import opened Contexts

  /** A private variable shadows every resolver: the answer depends on the private map
      alone, whatever the resolvers, the chain or the alias evaluator are. */
  lemma PrivateShadows(c: Context, c2: Context, name: string, e: string -> Value, e2: string -> Value)
    requires name in c.privateVariables
    requires c2.privateVariables == c.privateVariables
    ensures GetVariable(c2, name, e2) == GetVariable(c, name, e) == c.privateVariables[name]
  {
  }

  /** Full lookup order of `getVariableResolver`: the own map, then the first factory of
      the chain that holds the name, else null. */
  lemma ResolverLookupOrder(c: Context, name: string)
    ensures var links := Links(c.next);
            var k := Holder(links, c.next.local, name);
            GetVariableResolver(c, name) ==
              if IsTarget(c, name) then Some(c.variableResolvers[name])
              else if k < |links| then Some(ResolversOf(links[k], c.next.local)[name])
              else None
  {
    WalkFindsHolder(Links(c.next), c.next.local, name);
  }

  /** Full lookup order of `getVariable`: the private map, then the own map, then the
      first factory of the chain that holds the name, else null. */
  lemma VariableLookupOrder(c: Context, name: string, e: string -> Value)
    ensures var links := Links(c.next);
            var k := Holder(links, c.next.local, name);
            GetVariable(c, name, e) ==
              if name in c.privateVariables then c.privateVariables[name]
              else if IsTarget(c, name) then ValueOf(c.variableResolvers[name], e)
              else if k < |links| then ValueOf(ResolversOf(links[k], c.next.local)[name], e)
              else Null
  {
    ResolverLookupOrder(c, name);
  }

  /** A resolver written by `addResolver` for `name` is the one a lookup of `name` sees. */
  predicate WriteVisible(c: Context, name: string) {
    c.subclass || (name !in c.variableResolvers && ReachesLocal(Links(c.next), name))
  }

  /** `addResolver` wins the lookup of its name exactly when the write is visible;
      otherwise the lookup is what it was. */
  lemma AddResolverLookup(c: Context, name: string, r: Resolver)
    ensures GetVariableResolver(AddResolver(c, name, r), name) ==
            if WriteVisible(c, name) then Some(r) else GetVariableResolver(c, name)
  {
    if !c.subclass && name !in c.variableResolvers {
      WalkAfterLocalWrite(Links(c.next), c.next.local, name, r);
    }
  }

  /** `addResolver` does not change the lookup of any other name. */
  lemma AddResolverOtherNames(c: Context, name: string, other: string, r: Resolver)
    requires other != name
    ensures GetVariableResolver(AddResolver(c, name, r), other) == GetVariableResolver(c, other)
  {
    var c' := AddResolver(c, name, r);
    if other !in c.variableResolvers {
      WalkOtherName(Links(c.next), Links(c'.next), c.next.local, c'.next.local, other);
    }
  }

  /** Walking a run of foreign factories, the local factory right after it is reached
      first exactly when none of them holds the name. */
  lemma {:induction false} ReachesLocalAfterForeigns(front: seq<Factory>, rest: seq<Link>, local: ResolverMap, name: string)
    requires |rest| > 0 && rest[0] == Local
    ensures ReachesLocal(Foreigns(front) + rest, name) <==> !Holds(Foreigns(front), local, name)
    decreases |front|
  {
    if front != [] {
      var tail := Foreigns(front[1..]);
      assert Foreigns(front) == [Foreign(front[0])] + tail;
      assert (Foreigns(front) + rest)[0] == Foreign(front[0]);
      assert (Foreigns(front) + rest)[1..] == tail + rest;
      ReachesLocalAfterForeigns(front[1..], rest, local, name);
      var all := Foreigns(front) + rest;
      assert ReachesLocal(all, name) ==
             (name !in front[0].resolvers && ReachesLocal(tail + rest, name));
      if Holds(Foreigns(front), local, name) && name !in front[0].resolvers {
        var j :| 0 <= j < |front| && name in ResolversOf(Foreigns(front)[j], local);
        assert Foreigns(front)[j] == tail[j - 1];
      }
      if Holds(tail, local, name) {
        var j :| 0 <= j < |tail| && name in ResolversOf(tail[j], local);
        assert Foreigns(front)[j + 1] == tail[j];
      }
      assert name in front[0].resolvers ==> name in ResolversOf(Foreigns(front)[0], local);
    } else {
      assert Foreigns(front) + rest == rest;
    }
  }

  /** On a well-formed chain, a base-class write is visible exactly when neither the own
      map nor any factory ahead of the local factory holds the name. */
  lemma BaseWriteVisibleOnWellFormed(c: Context, name: string)
    requires !c.subclass
    requires WellFormed(c.next)
    ensures WriteVisible(c, name) <==>
            name !in c.variableResolvers && !Holds(Foreigns(c.next.front), c.next.local, name)
  {
    var rest := [Local] + Foreigns(c.next.localNext);
    assert Links(c.next) == Foreigns(c.next.front) + rest;
    ReachesLocalAfterForeigns(c.next.front, rest, c.next.local, name);
  }

  /** A variable added where the write is visible is read back, unless a private variable
      of that name shadows it. */
  lemma AddVariableThenGet(c: Context, name: string, value: Value, e: string -> Value)
    requires WriteVisible(c, name)
    ensures GetVariable(AddVariable(c, name, value), name, e) ==
            if name in c.privateVariables then c.privateVariables[name] else value
  {
    AddResolverLookup(c, name, Variable(name, value, Store));
  }

  /** A private variable is always read back, whatever resolvers exist for the name. */
  lemma AddPrivateThenGet(c: Context, name: string, value: Value, e: string -> Value)
    ensures GetVariable(AddPrivateVariable(c, name, value), name, e) == value
  {
  }

  /** `createVariable` followed by `getVariable` yields the assigned value whenever the
      name resolves to a plain variable or does not resolve and the new one is visible. */
  lemma CreateThenGet(c: Context, name: string, value: Value, delegate: Delegate, e: string -> Value)
    requires name !in c.privateVariables
    requires match GetVariableResolver(c, name)
             case None => WriteVisible(c, name)
             case Some(vr) => vr.Variable? && vr.onAssign == Store
    ensures CreateVariable(c, name, value, delegate).Success?
    ensures GetVariable(CreateVariable(c, name, value, delegate).value.0, name, e) == value
  {
    if GetVariableResolver(c, name).None? {
      AddResolverLookup(c, name, Variable(name, value, Store));
    }
  }

  /** A final variable cannot be reassigned through `createVariable` while it is the
      binding the lookup sees, whatever any callback would do. */
  lemma FinalRejectsCreate(c: Context, name: string, value: Value, newValue: Value, delegate: Delegate)
    requires WriteVisible(c, name)
    ensures CreateVariable(AddFinalVariable(c, name, value), name, newValue, delegate) == Failure(ImmutableElement(name))
  {
    AddResolverLookup(c, name, Variable(name, value, Reject));
  }

  /** `createVariable` changes the lookup of no other name. */
  lemma CreateKeepsOtherNames(c: Context, name: string, other: string, value: Value, delegate: Delegate)
    requires other != name
    requires CreateVariable(c, name, value, delegate).Success?
    ensures GetVariableResolver(CreateVariable(c, name, value, delegate).value.0, other) == GetVariableResolver(c, other)
  {
    if !IsResolveable(c, name) {
      AddResolverOtherNames(c, name, other, Variable(name, value, Store));
    }
  }

  /** A fresh context resolves nothing, and every write of the base class or of a
      subclass is visible in it. */
  lemma FreshContext(subclass: bool, name: string, e: string -> Value)
    ensures !Contains(NewContext(subclass), name)
    ensures GetVariable(NewContext(subclass), name, e) == Null
    ensures WriteVisible(NewContext(subclass), name)
  {
  }

  /** The base class keeps its variables in the local factory so that an appended
      factory takes precedence over them; a subclass's own variables stay first. */
  lemma AppendedFactoryPrecedence(c: Context, f: Factory, name: string)
    requires WellFormed(c.next)
    requires name in f.resolvers
    requires !Holds(Foreigns(c.next.front), c.next.local, name)
    ensures AppendFactory(c, f).Success?
    ensures GetVariableResolver(AppendFactory(c, f).value, name) ==
            if IsTarget(c, name) then Some(c.variableResolvers[name]) else Some(f.resolvers[name])
  {
    AppendPrecedence(c.next, f, name);
  }

  /** A factory inserted at the head is consulted right after the context's own map. */
  lemma InsertedFactoryPrecedence(c: Context, f: Factory, fNext: seq<Factory>, name: string)
    requires Links(c.next) != []
    ensures GetVariableResolver(InsertFactory(c, f, fNext), name) ==
            if IsTarget(c, name) then Some(c.variableResolvers[name])
            else if name in f.resolvers then Some(f.resolvers[name])
            else GetVariableResolver(c, name)
  {
    InsertPrecedence(c.next, f, fNext, name);
  }

  /** Writes never move a factory, so they keep the chain well formed. */
  lemma WritesKeepWellFormed(c: Context, name: string, r: Resolver, value: Value, delegate: Delegate)
    requires WellFormed(c.next)
    ensures WellFormed(AddResolver(c, name, r).next)
    ensures WellFormed(AddPrivateVariable(c, name, value).next)
    ensures CreateVariable(c, name, value, delegate).Success? ==>
              WellFormed(CreateVariable(c, name, value, delegate).value.0.next)
  {
  }

  /** Splicing in a factory that is not internal keeps the chain well formed. */
  lemma SplicesKeepWellFormed(c: Context, f: Factory, fNext: seq<Factory>)
    requires WellFormed(c.next)
    requires !f.internal
    ensures AppendFactory(c, f).Success? && WellFormed(AppendFactory(c, f).value.next)
    ensures WellFormed(InsertFactory(c, f, fNext).next)
  {
    AppendBeforeLocal(c.next, f);
    InsertKeepsShape(c.next, f, fNext);
  }
}

=== FILE: resolvers.dfy ===
/** Variable resolvers: what a resolver factory hands out for a variable name.
    `Variable` stands for MuleVariableResolver, `Alias` for MuleAliasVariableResolver;
    resolvers held by foreign factories are modelled with the same two shapes. */
module Resolvers {
  import opened Wrappers

  /** A Java object held by a variable. `Null` is Java's null; other objects are opaque,
      including the function objects `declareFunction` binds, identified by `impl`. */
  datatype Value = Null | Object(id: nat) | FunctionInstance(functionName: string, impl: nat)

  /** What a variable does with an assignment: keep the new value (no callback), refuse it
      (the callback of a final variable), or pass it to a user-supplied callback. */
  datatype OnAssign = Store | Reject | Callback(id: nat)

  datatype Resolver =
    | Variable(name: string, value: Value, onAssign: OnAssign)
    | Alias(name: string, expression: string)

  type ResolverMap = map<string, Resolver>

  /** The exceptions of this model: ImmutableElementException from a final variable, the
      NullPointerException of walking an empty factory chain, and any other exception,
      identified only by `id`, thrown by code outside the model. */
  datatype Error = ImmutableElement(variable: string) | NullPointer | Thrown(id: nat)

  /** An assignment a resolver hands elsewhere (to a user callback, or to the evaluation of
      an alias) succeeds (`None`) or throws; its outcome is supplied by the caller. */
  type Delegate = (Resolver, Value) -> Option<Error>

  /** Whether the resolver hands assignments to code outside the model. */
  predicate Delegates(r: Resolver) {
    r.Alias? || r.onAssign.Callback?
  }

  /** `getValue`: a variable yields its stored value; an alias yields the value of its
      expression, whose evaluation is supplied by the caller. */
  function ValueOf(r: Resolver, evalAlias: string -> Value): Value {
    match r
    case Variable(_, v, _) => v
    case Alias(_, e) => evalAlias(e)
  }

  /** `setValue`: the only way an existing resolver changes. */
  function SetValue(r: Resolver, v: Value, delegate: Delegate): (res: Result<Resolver, Error>)
    ensures res.Failure? <==> (r.Variable? && r.onAssign == Reject) || (Delegates(r) && delegate(r, v).Some?)
    ensures r.Variable? && r.onAssign == Reject ==> res == Failure(ImmutableElement(r.name))
    ensures Delegates(r) && delegate(r, v).Some? ==> res == Failure(delegate(r, v).value)
    ensures res.Success? ==> res.value.name == r.name
    // a plain variable now yields the assigned value and stays assignable
    ensures r.Variable? && r.onAssign == Store ==>
              res.Success? && res.value.Variable? && res.value.value == v && res.value.onAssign == Store
    // an accepted delegated assignment takes effect elsewhere; the resolver is unchanged
    ensures Delegates(r) && res.Success? ==> res.value == r
  {
    match r
    case Variable(n, _, Store) => Success(Variable(n, v, Store))
    case Variable(n, _, Reject) => Failure(ImmutableElement(n))
    case _ =>
      match delegate(r, v)
      case Some(e) => Failure(e)
      case None => Success(r)
  }

  /** Reading after assigning: a plain variable yields the assigned value, and any other
      resolver that accepts the assignment yields what it yielded before, for the same
      evaluation of aliases. */
  lemma AssignThenRead(r: Resolver, v: Value, delegate: Delegate, evalAlias: string -> Value)
    requires SetValue(r, v, delegate).Success?
    ensures ValueOf(SetValue(r, v, delegate).value, evalAlias) ==
            if r.Variable? && r.onAssign == Store then v else ValueOf(r, evalAlias)
  {
  }
}

=== FILE: wrappers.dfy ===
/** Java's nullable references and thrown exceptions, as values. */
module Wrappers {

  /** A reference that may be null: `None` stands for Java's `null`. */
  datatype Option<+T> = None | Some(value: T)

  /** The outcome of an operation that either returns normally or throws. */
  datatype Result<+T, +E> = Success(value: T) | Failure(error: E)
}
